=== FILE: README.md ===
# Radio Calico player and ratings service, modelled in Dafny

Radio Calico is a web radio player. The page plays a live HLS stream and
polls a metadata document every 30 seconds to show the current and recently
played tracks. It also lets a listener give the current track a thumbs-up or
a thumbs-down. A small Flask service stores those votes, one per song and
browser session, and reports the counts.

This project models the logic under that wiring:

- `ratings_store.dfy` (module `RatingsStore`) is the service in `app.py`.
  A store is two maps: songs keyed by their normalised (title, artist) pair,
  and ratings keyed by (song, session). `Rate` is `POST /api/rate` and
  `GetRatings` is `GET /api/ratings/<title>/<artist>`.
- `text.dfy` (module `Text`) holds the string operations both sides use:
  ASCII `lower()`/`strip()`, substring search, and decimal rendering.
- `stream_quality.dfy` (module `StreamQuality`) is `updateStreamQuality`:
  codec labels, kbps rounding, the auto-level fallback and the text
  precedence.
- `page_view.dfy` (module `PageView`) is the page state as an immutable
  record. Requests a handler starts are returned as `Effect` values.
- `now_playing.dfy` (module `NowPlaying`) holds `updateNowPlaying`,
  `updateRecentlyPlayed` and the two outcomes of `fetchMetadata`.
- `rating_controls.dfy` (module `RatingControls`) holds `loadRatings` and
  `rateSong`. `rateSong` is split in two: `RateClicked` runs up to the
  request and `RateFinished` runs once the request settles.
- `client_server.dfy` (module `ClientServer`) joins the two sides. The vote
  the page posts is the request the service checks, the ratings URL is
  split back into a title and an artist by the service's route, and the
  service's replies feed the page's handlers.

The session cookie is a parameter and the SQLite tables are maps. Every handler is a pure function from the old state and
its input to the new state and its effects.

Two behaviours of the code are easy to miss, and the model keeps both:

- The service checks that a field is present (`'title' in data`), not that
  it is non-empty. So an empty title is accepted by the service. The page
  never sends one.
- When a vote succeeds, `rateSong` reloads the ratings of the track current
  *at that moment* (js/app.js:279). If a poll has cleared the track in the
  meantime, that line throws. The `catch` block then replaces the thank-you
  text with "Unable to submit rating". `RateFinished` models this.

## Model

| member | source | states |
|---|---|---|
| `RatingsStore.VoteOf` | app.py:67-68 | A rating is accepted exactly when it is 1 or -1, and the accepted vote stores that same integer |
| `RatingsStore.Rate` | app.py:56-99 | A missing body, title, artist or rating gives 400 with the missing-fields text and leaves the store unchanged. A rating other than 1/-1 gives 400 with the rating text and leaves the store unchanged. Otherwise the vote is recorded: the (song, session) entry holds the new vote and every other entry is unchanged. An existing song row is kept as it was, a new song row holds the request's title, artist and album (empty if absent), and the foreign key still holds |
| `RatingsStore.GetRatings` | app.py:104-146 | An unknown song reports 0 up, 0 down and no user rating. Otherwise the reply holds the number of sessions voting up, the number voting down, and the caller's own vote |
| `RatingsStore.TalliesCountVoters` | app.py:126-132 | The up count plus the down count equals the number of distinct sessions that voted on the song |
| `RatingsStore.RatingsCountVoters` | app.py:126-144 | In a reply, `thumbs_up + thumbs_down` equals the number of distinct sessions that voted on the song |
| `RatingsStore.TallyAfterUpsert` | app.py:90-97 | An upsert of one (song, session) entry moves each count of that song by the change in that single vote, and leaves the counts of other songs alone |
| `RatingsStore.RateMovesTallies` | app.py:90-97 | After a recorded vote, the caller's vote is the new one. Each count has lost the caller's old vote, if there was one, and gained the new one |
| `RatingsStore.RepeatVoteKeepsCounts` | app.py:91-95 | Sending again the vote a session already holds leaves the whole reply, counts and own vote, unchanged |
| `RatingsStore.SwitchUpToDown` | app.py:91-95 | Switching a session's vote from 1 to -1 lowers thumbs-up by one, raises thumbs-down by one, and makes the own vote -1 |
| `RatingsStore.RateIdempotent` | app.py:76-97 | Applying the same request twice leaves the same store and the same response as applying it once |
| `RatingsStore.RateLeavesOthers` | app.py:91-96 | A vote leaves the reply for every other song unchanged, and leaves every other session's own vote on the same song unchanged |
| `RatingsStore.UnratedReportsNothing` | app.py:116-140 | A song with no voters reports 0, 0 and no own vote. A session gets no own vote back exactly when it has not voted on the song |
| `RatingsStore.SongIdentityIgnoresCaseAndPadding` | app.py:47-48 | A title and an artist padded with any whitespace, and differing only in ASCII letter case, read the same reply and write the same vote entry as the plain title and artist |
| `RatingsStore.PaddedUpperCaseIsSameSong` | app.py:47-48 | ("Foo ", "BAR") and ("foo", "bar") are the same song |
| `RatingsStore.FirstAlbumKept` | app.py:76-79 | Rating a song that already exists leaves its stored row, including the first album, untouched |
| `RatingsStore.KeyOf` | app.py:47-48 | A song key holds a title half and an artist half, each a normal form: lowering, stripping or normalising it again changes nothing |
| `RatingsStore.KeyOfHalves` | app.py:47-48 | Each half of the key comes from its own argument: the title half is the lowered title with whitespace cut from both ends, and the artist half is the lowered artist cut the same way |
| `RatingsStore.ColonSongsKeptApart` | app.py:47-48 | Although ("a:b", "c") and ("a", "b:c") have the same hashed text, a vote on the first, from any session, leaves every session's reply for the second unchanged |
| `RatingsStore.HashInputCollides` | app.py:48 | The hashed text `title:artist` is the same for ("a:b", "c") and ("a", "b:c"), although the two songs differ |
| `RatingsStore.HashInputSeparatesColonFreeTitles` | app.py:48 | When neither normalised title contains a colon, equal hashed texts mean the same song, and the converse holds too |
| `Text.TrimStartShape` | app.py:48 | Stripping the front removes exactly the longest all-whitespace prefix |
| `Text.TrimEndShape` | app.py:48 | Stripping the back removes exactly the longest all-whitespace suffix |
| `Text.StripIgnoresPadding` | app.py:48 | `strip()` gives the same result whatever whitespace surrounds the text |
| `Text.NormaliseIgnoresPadding` | app.py:48 | `lower().strip()` gives the same result whatever whitespace surrounds the text |
| `Text.Normalise` | app.py:48 | The result of `lower().strip()` has no upper-case ASCII letter and no whitespace at either end, and lowering or stripping it again changes nothing |
| `Text.NormaliseTrims` | app.py:48 | The result of `lower().strip()` is the lowered input with an all-whitespace prefix and an all-whitespace suffix cut off. With the previous row, all surrounding whitespace is cut |
| `Text.NormaliseIgnoresCase` | app.py:48 | Two texts of the same length that differ only in the case of ASCII letters, position by position, have the same normal form |
| `Text.DecimalRoundTrip` | js/app.js:106 | The kbps number written into the quality text reads back as the same number |
| `StreamQuality.RoundKbps` | js/app.js:88 | The kbps value times 1000 lies within 500 of the bitrate: from 500 below it up to, but not including, 500 above it |
| `StreamQuality.RoundKbpsIsNearest` | js/app.js:88 | The displayed kbps is the whole number nearest to bitrate/1000. On a tie it is the larger one (half rounds up) |
| `StreamQuality.BitrateText` | js/app.js:88-90 | An absent bitrate reads "Unknown", and only an absent one. Any other bitrate is written as decimal digits, with no leading zero unless the number is 0, whose value times 1000 lies within 500 of the bitrate |
| `StreamQuality.CodecLabelIsFirstMatch` | js/app.js:92-103 | The codec label is the label of the first identifier, in the order mp4a.40.2, mp4a.40.5, flac, opus, mp3, that occurs in the codec string. With no match it is the codec string itself |
| `StreamQuality.CodecLabel` | js/app.js:92-103 | The label is one of AAC-LC, AAC-HE, FLAC, Opus, MP3 or the raw codec. It is a known label whenever a known identifier occurs, and the raw codec when none does |
| `StreamQuality.UnknownIsNoCodec` | js/app.js:89-103 | The fallback word "Unknown" contains none of the known identifiers, so it is shown as it is |
| `StreamQuality.CodecText` | js/app.js:89-103 | A level with no codec is shown as "Unknown". A level with a codec is shown with that codec's label |
| `StreamQuality.UpdateStreamQuality` | js/app.js:81-121 | Precedence: a resolved level gives "{kbps}kbps {label} / HLS" and "Live Stream ({label})". A level list whose chosen index has no level gives the fixed HLS Lossless/Unknown texts. Without levels, an audio source gives the native texts. Otherwise both texts read "Loading..." |
| `StreamQuality.AutoLevelShowsFirst` | js/app.js:82-84 | A negative current level is described exactly as level 0 |
| `StreamQuality.LoadingOnlyBeforeAnySource` | js/app.js:81-121 | "Loading..." is shown exactly when there is no level list and no audio source |
| `NowPlaying.UpdateNowPlaying` | js/app.js:144-188 | With a non-empty title and artist, the track {title, artist, album or ""} becomes current. The rating section is shown, a single ratings load for (title, artist) is requested, and the album line carries the soundtrack suffix. Otherwise the track is cleared, the section is hidden, nothing is requested and the placeholders are shown. Either way the section is shown exactly when a track is current, and the counts, buttons, message and recent list are untouched |
| `NowPlaying.NowPlayingLoadsOnce` | js/app.js:159-160 | Setting a track requests exactly one ratings load, and it is for that track's title and artist. Clearing the track requests none |
| `NowPlaying.AlbumDisplay` | js/app.js:147 | The album line reads back to the album. It is empty exactly when there is no album |
| `NowPlaying.CompleteSlotsFrom` | js/app.js:195-201 | The slots kept are exactly those whose artist and title are both non-empty. They are strictly increasing, and there are at most as many as slots scanned |
| `NowPlaying.RecentlyPlayed` | js/app.js:195-216 | The empty-state text ("No recent tracks available") is shown exactly when no slot 1..5 is complete. Otherwise the list has 1 to 5 entries, the tracks of the complete slots in slot order |
| `NowPlaying.RecentlyPlayedIsCompleteSlots` | js/app.js:195-201 | Every complete slot's track is listed, every listed track fills a complete slot, and the list follows increasing slot number |
| `NowPlaying.MetadataLoaded` | js/app.js:124-129 | A fetched payload drives both updates. The recent list is derived from it, and every other part of the page, together with the requests, is exactly what the now-playing update makes of the old page and the payload. The track is set exactly when the payload names one, and the section is shown exactly when a track is current |
| `NowPlaying.MetadataFailed` | js/app.js:130-133 | A failed fetch changes only the title line, to "Unable to load track info" |
| `RatingControls.ActiveButtons` | js/app.js:233-240 | user_rating 1 makes only the up button active and -1 only the down button. Anything else makes neither active. Both are never active together |
| `RatingControls.RatingsLoaded` | js/app.js:226-244 | A reply sets both counts verbatim and the active buttons from user_rating, and nothing else. A failed load only sets the "Unable to load ratings" message |
| `RatingControls.RateClicked` | js/app.js:248-272 | With no current track nothing changes and nothing is sent. Otherwise both buttons are disabled and one POST carries the track's title, artist and album and the rating |
| `RatingControls.RateFinished` | js/app.js:274-296 | On every outcome both buttons are enabled again and a message clear is scheduled. A success with a current track says "Thanks for rating!" and reloads that track's ratings. A server error shows its error text, or "Failed to submit rating" when it has none. A thrown error, including the failed reload after the track was cleared, shows "Unable to submit rating" |
| `RatingControls.MessageCleared` | js/app.js:293-295 | The delayed clear empties the message whatever it holds, and touches nothing else |
| `RatingControls.RateLifecycle` | js/app.js:249-290 | A click without a track is a no-op. With a track, the buttons are disabled during the request and enabled after it whatever the outcome. The rest of the page, apart from the message, ends as it began |
| `RatingControls.RatingHandlersKeepCoherence` | js/app.js:219-297 | No rating handler breaks the link between the rating section being shown and a track being current |
| `ClientServer.ClickIsRecordedAndShown` | js/app.js:260-279 | A 1 or -1 click on the current track is accepted by the service. The reload that follows, asking for exactly the voted title and artist, marks exactly the clicked button active, shows the thanks message with both buttons enabled, and counts at least that vote |
| `ClientServer.RejectionShowsServerText` | js/app.js:281 | A vote the service refuses shows the service's own error text |
| `ClientServer.FirstCut` | app.py:104 | The cut found is a slash after a non-empty title and before an artist that is non-empty and does not start with a slash. No earlier position is such a cut, and when none is found there is none at all |
| `ClientServer.Route` | app.py:104 | A path is routed exactly when it is non-empty, does not start with a slash and has a cut. The routed title and artist rebuild the path around one slash, neither is empty or starts with a slash, and the title is the shortest that works |
| `ClientServer.MergePairs` | app.py:104 | Werkzeug's slash merging leaves a path without adjacent slashes as it is, shortens one that has them, and keeps a leading slash |
| `ClientServer.Served` | app.py:104 | A path that matches the route is answered for the routed names. One that does not is answered for the names routed from its slash-merged form, where the redirect leads |
| `ClientServer.Reload` | js/app.js:219-244 | The reload fails exactly when neither the ratings path nor its slash-merged form matches the route. Otherwise the page receives the service's reply for the names the service answers for |
| `ClientServer.RouteRecoversPlainNames` | app.py:104 | A non-empty title with no slash and a non-empty artist that does not start with one reach the service unchanged, on the first try |
| `ClientServer.LeadingSlashIsMerged` | app.py:104 | "/T" by "A" does not match the route, but its merged retry does, so the service answers for "T" by "A", a different song |
| `ClientServer.SlashTitleRoutesElsewhere` | app.py:104 | The route reads "A/B" by "C" as "A" by "B/C", and that is a different song key |
| `ClientServer.SlashTitleReloadMissesVote` | app.py:104 | After a recorded vote on "A/B" by "C" in an empty store, the reload shows 0, 0 and no own vote |

## Left out

- Player setup and playback status (js/app.js:7-71) are left out. They are calls into the HLS library and audio-element event listeners, with no logic beyond writing fixed status strings.
- Network and timers are left out. `fetch`, the 30-second poll and the 3-second timer become effect values or handler inputs. Their interleaving is concurrency, not sequential behaviour. In particular a ratings reply that arrives after the track has changed is applied as it is, as the code does.
- The cover-art prefetch is left out (js/app.js:162-178). Its `Image` load and error handlers, which show the cover or the placeholder, are not modelled, so setting a track does not change `albumArtShown` or `placeholderShown`. Its cache-busting `Date.now()` goes with it.
- Timestamps are left out. The upsert also sets `created_at = CURRENT_TIMESTAMP` (app.py:95), and the model has no such column. So `RateIdempotent` says the votes and songs are the same after a repeat, not the timestamps.
- Of Flask's routing only the ratings route `<path:title>/<path:artist>` (app.py:104) is modelled, by `ClientServer.Route`. The rest of the routing, CORS, SQLite and session creation (`get_db`, `init_db`, `get_user_session`, `health_check`) are left out. The session is a given opaque value and the two tables are maps. Database exceptions and their 500 replies are not modelled. The "Failed to create song record" branch (app.py:85-86) cannot happen once the song row has been inserted or ignored.
- MD5 is left out. The store is keyed by `KeyOf`, the pair of normalised halves, which is what the hash is meant to identify. The hashed text (`HashInput`) is kept only to show where it differs from the pair: for titles with a colon (see Findings). MD5 itself is taken as collision-free.
- Only ASCII case and whitespace are modelled: `lower()` maps only A-Z, and `strip()` removes only ASCII whitespace. Python's Unicode case mapping and Unicode whitespace are left out.
- Type quirks are left out. Python's `rating in [1, -1]` also accepts `True` and `1.0`. Non-string JSON values and JavaScript truthiness of non-strings are not modelled: fields are strings, where empty means absent, and ratings are integers.
- Floating point is left out. Bitrates are non-negative integers, so `Math.round(b/1000)` is `(b + 500) / 1000`. A missing bitrate is 0.
- Percent-encoding is modelled as an exact round trip. `encodeURIComponent` escapes `/`, `%`, `?`, `#` and every other character that would change the URL's structure. The few it leaves as they are, such as `!'()*`, decode to themselves. The server decodes the path before routing, so the route sees `title + "/" + artist` (`RatingsPath`).
- ClientServer.Served follows Werkzeug 2.2 and later, where `merge_slashes` is on by default. A path that misses the route is retried once with its slash pairs merged, and a match there is answered with a redirect that the page follows. Older Werkzeug versions merge slashes inside the rule's pattern instead, and those versions are not modelled.
- ClientServer.Route: a `.` in the route pattern does not match a line break in Python, and the model matches any character. So a title or artist holding a line break is routed by the model, although the service answers 404.
- URL dot segments are left out. A title or artist that is exactly `.` or `..` is not escaped by `encodeURIComponent` and would be resolved away by the browser's URL parser before the request is sent.
- `PageView.View` has no initial value: the page's initial HTML is not part of this model. The link between the rating section and the current track holds from the first metadata update on.

## Findings

| source | as written | input that shows it | evidently intended | confidence | as-written member | corrected member |
|---|---|---|---|---|---|---|
| app.py:48 | A song is identified by the MD5 of `title:artist`, built after normalising each half. A colon inside a title or an artist can move the boundary | ("a:b", "c") and ("a", "b:c") give the same hashed text, so their votes and counts merge | Two songs are the same only when both their normalised titles and their normalised artists agree | medium; not executed | `RatingsStore.HashInputCollides` | `RatingsStore.ColonSongsKeptApart` |
| app.py:104 | The page puts the title and the artist into the ratings URL with `encodeURIComponent`. The server decodes `%2F` back to a slash before matching `<path:title>/<path:artist>`, and the title part stops at the first slash that can end it | A vote on "A/B" by "C" is stored for that song, but the reload asks for "A" by "B/C" and shows 0, 0 and no own vote | The reload reads the ratings of exactly the song the page voted on | medium; not executed | `ClientServer.SlashTitleReloadMissesVote` | `ClientServer.ClickIsRecordedAndShown` |

=== FILE: client_server.dfy ===
/** The page and the ratings service together: the vote the page posts is
    the request the service validates, and the service's replies are what the
    page's handlers receive. */
module ClientServer {
  import opened Wrappers
  import opened PageView
  import RatingControls
  import RatingsStore
  import Text

  /** The JSON body of a posted vote. */
  function RequestOf(e: Effect): Option<RatingsStore.RateRequest>
    requires e.SubmitRating?
  {
    Some(RatingsStore.RateRequest(Some(e.title), Some(e.artist), Some(e.album), Some(e.rating)))
  }

  /** How the page sees the service's answer to a vote. */
  function OutcomeOf(resp: RatingsStore.Response): RatingControls.SubmitOutcome {
    match resp
    case Recorded => RatingControls.Accepted
    case Rejected(_, error) => RatingControls.ServerError(error)
  }

  /** How the page decodes a ratings reply. */
  function LoadOf(reply: RatingsStore.RatingsReply): RatingControls.LoadResponse {
    RatingControls.LoadOk(reply.thumbsUp, reply.thumbsDown,
                          if reply.userRating.Some? then Some(reply.userRating.value.ToInt()) else None)
  }

  /** The part of a ratings URL after `/api/ratings/`, as the service routes
      it: the page escapes a slash in either name as `%2F`, and the server
      decodes the path before matching it, so the escape is gone again. */
  function RatingsPath(title: string, artist: string): string {
    title + "/" + artist
  }

  /** Index `j` of `p` is a place where the route can cut: a slash after a
      non-empty title, followed by an artist that is not empty and does not
      start with a slash. */
  predicate CutAt(p: string, j: int) {
    1 <= j && j + 1 < |p| && p[j] == '/' && p[j + 1] != '/'
  }

  /** The first place at or after `j` where the route can cut. */
  function FirstCut(p: string, j: nat): (r: Option<nat>)
    ensures r.Some? ==> j <= r.value && CutAt(p, r.value)
    ensures r.Some? ==> forall i :: j <= i < r.value ==> !CutAt(p, i)
    ensures r.None? ==> forall i :: j <= i ==> !CutAt(p, i)
    decreases |p| - j
  {
    if j + 1 >= |p| then None
    else if CutAt(p, j) then Some(j)
    else FirstCut(p, j + 1)
  }

  /** The route `/api/ratings/<path:title>/<path:artist>`: each `path` part
      matches `[^/].*?`, so the title is the shortest non-empty prefix that
      does not start with a slash and leaves a valid artist after the next
      slash. A path with no such cut does not match on this first try. */
  function Route(p: string): (r: Option<(string, string)>)
    ensures r.Some? <==> p != [] && p[0] != '/' && exists j :: CutAt(p, j)
    ensures r.Some? ==>
              var (t, a) := r.value;
              && p == t + "/" + a
              && t != [] && t[0] != '/'
              && a != [] && a[0] != '/'
              && forall j :: 1 <= j < |t| ==> !CutAt(p, j)
  {
    if p == [] || p[0] == '/' then None
    else
      match FirstCut(p, 1)
      case None => None
      case Some(j) =>
        assert p == p[..j] + "/" + p[j + 1..];
        Some((p[..j], p[j + 1..]))
  }

  /** Two adjacent slashes start at index `i` of `s`. */
  predicate PairAt(s: string, i: int) {
    0 <= i && i + 1 < |s| && s[i] == '/' && s[i + 1] == '/'
  }

  /** One pass of Werkzeug's slash merging, `re.sub("/{2,}?", "/", path)`:
      pairs of adjacent slashes, taken left to right without overlap, each
      become one slash. A path without such a pair is left as it is, a path
      with one gets shorter, and a leading slash stays. */
  function MergePairs(s: string): (r: string)
    ensures |r| <= |s|
    ensures (forall i :: 0 <= i < |s| ==> !PairAt(s, i)) ==> r == s
    ensures (exists i :: PairAt(s, i)) ==> |r| < |s|
    ensures s != [] && s[0] == '/' ==> r != [] && r[0] == '/'
    decreases |s|
  {
    if |s| >= 2 && s[0] == '/' && s[1] == '/' then
      assert PairAt(s, 0);
      "/" + MergePairs(s[2..])
    else if s == [] then
      []
    else
      assert forall i :: PairAt(s[1..], i) ==> PairAt(s, i + 1);
      assert forall i :: PairAt(s, i) ==> i == 0 || PairAt(s[1..], i - 1);
      [s[0]] + MergePairs(s[1..])
  }

  /** The names the service answers for. A ratings path that matches the
      route is answered directly. One that does not is tried again with its
      slash pairs merged; when that matches, the service redirects there and
      the page's `fetch` follows. The full path is `/api/ratings/` followed
      by `p`, and only the final slash of that prefix can pair with `p`, so
      the merged full path is `/api/ratings` followed by the merged `"/" + p`. */
  function Served(p: string): (r: Option<(string, string)>)
    ensures Route(p).Some? ==> r == Route(p)
    ensures Route(p).None? ==> r == Route(MergePairs("/" + p)[1..])
    ensures r.Some? ==>
              var (t, a) := r.value;
              RatingsPath(t, a) == p || RatingsPath(t, a) == MergePairs("/" + p)[1..]
  {
    if Route(p).Some? then Route(p)
    else Route(MergePairs("/" + p)[1..])
  }

  /** The ratings the page shows after asking the service for `title` and
      `artist`: the reply for whatever names the service answers for, or a
      failed load when neither the path nor its merged form matches (the 404
      page is not JSON). */
  function Reload(st: RatingsStore.Store, session: RatingsStore.Session, title: string, artist: string)
    : (r: RatingControls.LoadResponse)
    ensures Served(RatingsPath(title, artist)).None? <==> r == RatingControls.LoadFailed
    ensures Served(RatingsPath(title, artist)).Some? ==>
              var (t, a) := Served(RatingsPath(title, artist)).value;
              r == LoadOf(RatingsStore.GetRatings(st, session, t, a))
  {
    match Served(RatingsPath(title, artist))
    case None => RatingControls.LoadFailed
    case Some((t, a)) => LoadOf(RatingsStore.GetRatings(st, session, t, a))
  }

  /** A title that starts with a slash does not match the route, but the
      merged retry drops that slash: "/T" by "A" is answered as "T" by "A",
      a different song. */
  lemma LeadingSlashIsMerged()
    ensures Route(RatingsPath("/T", "A")).None?
    ensures Served(RatingsPath("/T", "A")) == Some(("T", "A"))
    ensures RatingsStore.KeyOf("/T", "A") != RatingsStore.KeyOf("T", "A")
  {
    var q := "T/A";
    var s := "/" + RatingsPath("/T", "A");
    assert s == "//T/A" && s[2..] == q;
    assert forall i :: 0 <= i < |q| ==> !PairAt(q, i);
    assert MergePairs(s) == "/" + q;
    assert MergePairs(s)[1..] == q;
    assert CutAt(q, 1);
    assert q[..1] == "T" && q[2..] == "A";
    assert Text.Normalise("/T") == "/t";
    assert Text.Normalise("T") == "t";
  }

  /** A title with no slash and a non-empty artist that does not start with
      one reach the service as they were sent, with no retry, so the reload
      asks for the ratings of exactly the song the page shows. */
  lemma {:induction false} RouteRecoversPlainNames(title: string, artist: string)
    requires title != [] && '/' !in title
    requires artist != [] && artist[0] != '/'
    ensures Route(RatingsPath(title, artist)) == Some((title, artist))
    ensures Served(RatingsPath(title, artist)) == Some((title, artist))
  {
    var p := RatingsPath(title, artist);
    assert CutAt(p, |title|);
    forall j | 1 <= j < |title|
      ensures !CutAt(p, j)
    {
      assert p[j] == title[j];
    }
    var (t, a) := Route(p).value;
    assert |t| == |title|;
    assert t == p[..|t|] == title;
  }

  /** A slash inside a title moves the cut: the service reads "A/B" by "C"
      as "A" by "B/C", which is a different song. */
  lemma SlashTitleRoutesElsewhere()
    ensures Route(RatingsPath("A/B", "C")) == Some(("A", "B/C"))
    ensures RatingsStore.KeyOf("A", "B/C") != RatingsStore.KeyOf("A/B", "C")
  {
    var p := RatingsPath("A/B", "C");
    assert CutAt(p, 1);
    assert p[..1] == "A" && p[2..] == "B/C";
    assert Text.Normalise("A/B") == "a/b";
    assert Text.Normalise("A") == "a";
  }

  /** So the reload after a vote on "A/B" by "C" finds no such song and
      shows no counts and no own vote. */
  lemma SlashTitleReloadMissesVote(session: RatingsStore.Session)
    ensures var empty := RatingsStore.Store(map[], map[]);
            var req := RatingsStore.RateRequest(Some("A/B"), Some("C"), Some(""), Some(1));
            var served := RatingsStore.Rate(empty, session, Some(req));
            && served.response.Recorded?
            && Reload(served.store, session, "A/B", "C") == RatingControls.LoadOk(0, 0, None)
  {
    SlashTitleRoutesElsewhere();
    var req := RatingsStore.RateRequest(Some("A/B"), Some("C"), Some(""), Some(1));
    var served := RatingsStore.Rate(RatingsStore.Store(map[], map[]), session, Some(req));
    var other := RatingsStore.KeyOf("A", "B/C");
    assert other !in served.store.songs;
  }

  /** A thumbs-up or thumbs-down click on the current track, carried through
      the service and the reload that follows: the vote is recorded, the page
      thanks the user, re-enables both buttons, marks exactly the clicked
      button active, and shows a count that includes the vote. */
  lemma ClickIsRecordedAndShown(v: View, rating: int, st: RatingsStore.Store, session: RatingsStore.Session)
    requires v.currentTrack.Some?
    requires rating == 1 || rating == -1
    requires RatingsStore.Valid(st)
    ensures var t := v.currentTrack.value;
            var clicked := RatingControls.RateClicked(v, rating);
            var served := RatingsStore.Rate(st, session, RequestOf(clicked.effects[0]));
            var finished := RatingControls.RateFinished(clicked.view, OutcomeOf(served.response));
            var reply := RatingsStore.GetRatings(served.store, session, t.title, t.artist);
            var shown := RatingControls.RatingsLoaded(finished.view, LoadOf(reply));
            && served.response.Recorded?
            && finished.effects[0] == LoadRatings(t.title, t.artist)
            && shown.ratingMessage == RatingControls.ThanksMessage
            && !shown.upDisabled && !shown.downDisabled
            && (shown.upActive <==> rating == 1)
            && (shown.downActive <==> rating == -1)
            && (if rating == 1 then shown.thumbsUpCount else shown.thumbsDownCount) >= 1
  {
    var t := v.currentTrack.value;
    var clicked := RatingControls.RateClicked(v, rating);
    var req := RequestOf(clicked.effects[0]).value;
    var served := RatingsStore.Rate(st, session, Some(req));
    var k := RatingsStore.KeyOf(t.title, t.artist);
    var w := RatingsStore.VoteOf(rating).value;
    RatingsStore.RateMovesTallies(st, session, req, w);
    assert (k, session) in RatingsStore.Holders(served.store.ratings, k, w);
    assert |RatingsStore.Holders(served.store.ratings, k, w)| >= 1;
  }

  /** A vote the service refuses shows the service's own error text. */
  lemma RejectionShowsServerText(v: View, st: RatingsStore.Store, session: RatingsStore.Session,
                                 data: Option<RatingsStore.RateRequest>)
    requires RatingsStore.Rate(st, session, data).response.Rejected?
    ensures RatingControls.RateFinished(v, OutcomeOf(RatingsStore.Rate(st, session, data).response))
              .view.ratingMessage == RatingsStore.Rate(st, session, data).response.error
  {
  }
}

=== FILE: now_playing.dfy ===
/** The metadata handlers of the player page: the now-playing transition,
    which sets or clears the current track and asks for its ratings, and the
    recently-played list taken from the five numbered slots of the payload. */
module NowPlaying {
  import opened Wrappers
  import Text
  import opened PageView

  /** The metadata JSON object, with its string-valued fields. */
  type Metadata = map<string, string>

  /** A field of the payload; an absent field reads as the empty string,
      which JavaScript treats as false just like `undefined`. */
  function Field(data: Metadata, name: string): string {
    if name in data then data[name] else ""
  }

  const AlbumSuffix := " (Original Motion Picture Soundtrack)"

  /** The album line: the album with the soundtrack annotation, or nothing. */
  function AlbumDisplay(album: string): (r: string)
    ensures AlbumFromDisplay(r) == album
    ensures r == "" <==> album == ""
  {
    if album != "" then album + AlbumSuffix else ""
  }

  /** Reads the album back from its display line. */
  function AlbumFromDisplay(text: string): string {
    if |text| >= |AlbumSuffix| && text[|text| - |AlbumSuffix|..] == AlbumSuffix
    then text[..|text| - |AlbumSuffix|]
    else ""
  }

  /** The payload names a track: both title and artist are non-empty. */
  predicate HasTrack(data: Metadata) {
    Field(data, "title") != "" && Field(data, "artist") != ""
  }

  /** `updateNowPlaying`: show the reported track, make it current, reveal
      the rating section and ask for its ratings; or, when the payload names
      no track, show the loading placeholders and clear the current track. */
  function UpdateNowPlaying(v: View, data: Metadata): (r: Update)
    ensures TrackCoherent(r.view)
    ensures r.view.currentTrack.Some? <==> HasTrack(data)
    ensures HasTrack(data) ==>
              var t := Field(data, "title");
              var a := Field(data, "artist");
              && r.view.currentTrack == Some(Track(t, a, Field(data, "album")))
              && r.effects == [LoadRatings(t, a)]
              && r.view.titleText == t && r.view.artistText == a
              && r.view.albumText == AlbumDisplay(Field(data, "album"))
              && r.view.albumArtShown == v.albumArtShown
              && r.view.placeholderShown == v.placeholderShown
    ensures !HasTrack(data) ==>
              && r.effects == []
              && r.view.titleText == "Loading track info..."
              && r.view.artistText == "Loading..."
              && r.view.albumText == ""
              && !r.view.albumArtShown && r.view.placeholderShown
    ensures r.view.(currentTrack := v.currentTrack, titleText := v.titleText,
                    artistText := v.artistText, albumText := v.albumText,
                    albumArtShown := v.albumArtShown, placeholderShown := v.placeholderShown,
                    ratingSectionShown := v.ratingSectionShown) == v
  {
    var title := Field(data, "title");
    var artist := Field(data, "artist");
    var album := Field(data, "album");
    if title != "" && artist != "" then
      Update(v.(titleText := title, artistText := artist, albumText := AlbumDisplay(album),
                currentTrack := Some(Track(title, artist, album)),
                ratingSectionShown := true),
             [LoadRatings(title, artist)])
    else
      Update(v.(titleText := "Loading track info...", artistText := "Loading...", albumText := "",
                albumArtShown := false, placeholderShown := true,
                ratingSectionShown := false, currentTrack := None),
             [])
  }

  /** A track, once set, gets exactly one ratings load, and that load is for
      the track's own title and artist. */
  lemma NowPlayingLoadsOnce(v: View, data: Metadata)
    ensures var r := UpdateNowPlaying(v, data);
            && LoadCount(r.effects) == (if r.view.currentTrack.Some? then 1 else 0)
            && forall e :: e in r.effects ==>
                 e == LoadRatings(r.view.currentTrack.value.title, r.view.currentTrack.value.artist)
  {
  }

  /** The payload key of slot `i`, such as "prev_artist_3". */
  function SlotKey(prefix: string, i: nat): string
    requires 1 <= i <= 9
  {
    prefix + [Text.DigitChar(i)]
  }

  function SlotTrack(data: Metadata, i: nat): RecentTrack
    requires 1 <= i <= 5
  {
    RecentTrack(Field(data, SlotKey("prev_artist_", i)), Field(data, SlotKey("prev_title_", i)))
  }

  predicate SlotComplete(data: Metadata, i: nat)
    requires 1 <= i <= 5
  {
    SlotTrack(data, i).artist != "" && SlotTrack(data, i).title != ""
  }

  /** The complete slots among i..5, in increasing order. */
  function CompleteSlotsFrom(data: Metadata, i: nat): (r: seq<nat>)
    requires 1 <= i <= 6
    ensures |r| <= 6 - i
    ensures forall j :: 0 <= j < |r| ==> i <= r[j] <= 5 && SlotComplete(data, r[j])
    ensures forall j, j' :: 0 <= j < j' < |r| ==> r[j] < r[j']
    ensures forall n :: i <= n <= 5 && SlotComplete(data, n) ==> n in r
    decreases 6 - i
  {
    if i == 6 then []
    else if SlotComplete(data, i) then [i] + CompleteSlotsFrom(data, i + 1)
    else CompleteSlotsFrom(data, i + 1)
  }

  function CompleteSlots(data: Metadata): seq<nat> {
    CompleteSlotsFrom(data, 1)
  }

  /** `updateRecentlyPlayed`: the tracks of the complete slots, in slot
      order, or the empty-state text when no slot is complete. */
  function RecentlyPlayed(data: Metadata): (r: RecentView)
    ensures r.NoRecentTracks? <==> forall n :: 1 <= n <= 5 ==> !SlotComplete(data, n)
    ensures r.RecentList? ==>
              && 0 < |r.tracks| <= 5
              && |r.tracks| == |CompleteSlots(data)|
              && forall j :: 0 <= j < |r.tracks| ==> r.tracks[j] == SlotTrack(data, CompleteSlots(data)[j])
  {
    var slots := CompleteSlots(data);
    if |slots| == 0 then NoRecentTracks
    else RecentList(seq(|slots|, j requires 0 <= j < |slots| => SlotTrack(data, slots[j])))
  }

  /** A track is listed exactly when it fills a complete slot, and the
      listed tracks keep the order of their slots. */
  lemma RecentlyPlayedIsCompleteSlots(data: Metadata)
    ensures var r := RecentlyPlayed(data);
            var listed := if r.RecentList? then r.tracks else [];
            && (forall n :: 1 <= n <= 5 && SlotComplete(data, n) ==> SlotTrack(data, n) in listed)
            && (forall j :: 0 <= j < |listed| ==>
                  exists n :: 1 <= n <= 5 && SlotComplete(data, n) && listed[j] == SlotTrack(data, n))
            && (forall j, j' :: 0 <= j < j' < |listed| ==>
                  CompleteSlots(data)[j] < CompleteSlots(data)[j'])
  {
  }

  /** The fetch handler on success: both updates applied to one payload. */
  function MetadataLoaded(v: View, data: Metadata): (r: Update)
    ensures TrackCoherent(r.view)
    ensures r.view.recent == RecentlyPlayed(data)
    ensures r.view.currentTrack.Some? <==> HasTrack(data)
    ensures r.effects == UpdateNowPlaying(v, data).effects
    ensures r.view.(recent := v.recent) == UpdateNowPlaying(v, data).view
  {
    var u := UpdateNowPlaying(v, data);
    Update(u.view.(recent := RecentlyPlayed(data)), u.effects)
  }

  /** The fetch handler on a network or parse failure: only the title line
      changes, to the failure text. */
  function MetadataFailed(v: View): (r: View)
    ensures r.titleText == "Unable to load track info"
    ensures r.(titleText := v.titleText) == v
  {
    v.(titleText := "Unable to load track info")
  }
}

=== FILE: page_view.dfy ===
/** The state of the player page that its handlers read and write, with the
    DOM reduced to the values the handlers put into it, and the requests a
    handler starts reduced to effect values returned beside the new state. */
module PageView {
  import opened Wrappers

  /** `currentTrack`: the track the rating buttons apply to. */
  datatype Track = Track(title: string, artist: string, album: string)

  /** One entry of the recently-played list. */
  datatype RecentTrack = RecentTrack(artist: string, title: string)

  /** The recently-played panel: a non-empty list, or the empty-state text
      `NoRecentText`. */
  datatype RecentView = RecentList(tracks: seq<RecentTrack>) | NoRecentTracks

  const NoRecentText := "No recent tracks available"

  datatype View = View(
    currentTrack: Option<Track>,
    titleText: string,
    artistText: string,
    albumText: string,
    albumArtShown: bool,
    placeholderShown: bool,
    ratingSectionShown: bool,
    thumbsUpCount: int,
    thumbsDownCount: int,
    upActive: bool,
    downActive: bool,
    upDisabled: bool,
    downDisabled: bool,
    ratingMessage: string,
    recent: RecentView)

  /** What a handler asks the outside world to do next: fetch the ratings of
      a track, post a vote, or clear the rating message after three seconds. */
  datatype Effect =
    | LoadRatings(title: string, artist: string)
    | SubmitRating(title: string, artist: string, album: string, rating: int)
    | ClearMessageLater

  datatype Update = Update(view: View, effects: seq<Effect>)

  /** The rating section is on screen exactly when a track is current, so
      counts are never offered for a track that is not playing. */
  predicate TrackCoherent(v: View) {
    v.ratingSectionShown <==> v.currentTrack.Some?
  }

  /** The number of rating loads among `effects`. */
  function LoadCount(effects: seq<Effect>): nat {
    if effects == [] then 0
    else (if effects[0].LoadRatings? then 1 else 0) + LoadCount(effects[1..])
  }
}

=== FILE: rating_controls.dfy ===
/** The rating handlers of the player page: applying a ratings reply to the
    counts and the two vote buttons, and the life cycle of a vote from the
    click to the server's answer. */
module RatingControls {
  import opened Wrappers
  import opened PageView

  /** The outcome of a ratings fetch: the decoded reply, or a failed fetch. */
  datatype LoadResponse = LoadOk(thumbsUp: int, thumbsDown: int, userRating: Option<int>) | LoadFailed

  /** The outcome of posting a vote: a 2xx reply, a non-2xx reply carrying
      its `error` text (empty when it has none), or a thrown error. */
  datatype SubmitOutcome = Accepted | ServerError(error: string) | NetworkError

  const ThanksMessage := "Thanks for rating!"
  const FallbackError := "Failed to submit rating"
  const SubmitFailed := "Unable to submit rating"
  const LoadFailedMessage := "Unable to load ratings"

  /** Which vote button is marked active for the caller's previous vote. */
  function ActiveButtons(userRating: Option<int>): (r: (bool, bool))
    ensures r.0 <==> userRating == Some(1)
    ensures r.1 <==> userRating == Some(-1)
    ensures !(r.0 && r.1)
  {
    if userRating == Some(1) then (true, false)
    else if userRating == Some(-1) then (false, true)
    else (false, false)
  }

  /** `loadRatings` once its fetch settles: the counts verbatim and the
      active button, or the failure message with everything else stale. */
  function RatingsLoaded(v: View, resp: LoadResponse): (r: View)
    ensures resp.LoadOk? ==>
              && r.thumbsUpCount == resp.thumbsUp && r.thumbsDownCount == resp.thumbsDown
              && (r.upActive <==> resp.userRating == Some(1))
              && (r.downActive <==> resp.userRating == Some(-1))
              && r.(thumbsUpCount := v.thumbsUpCount, thumbsDownCount := v.thumbsDownCount,
                    upActive := v.upActive, downActive := v.downActive) == v
    ensures resp.LoadFailed? ==> r == v.(ratingMessage := LoadFailedMessage)
  {
    match resp
    case LoadOk(up, down, user) =>
      var buttons := ActiveButtons(user);
      v.(thumbsUpCount := up, thumbsDownCount := down, upActive := buttons.0, downActive := buttons.1)
    case LoadFailed =>
      v.(ratingMessage := LoadFailedMessage)
  }

  /** `rateSong(rating)` up to the request: nothing without a current track;
      otherwise both buttons are disabled and the vote is posted. */
  function RateClicked(v: View, rating: int): (r: Update)
    ensures v.currentTrack.None? ==> r == Update(v, [])
    ensures v.currentTrack.Some? ==>
              var t := v.currentTrack.value;
              && r.view == v.(upDisabled := true, downDisabled := true)
              && r.effects == [SubmitRating(t.title, t.artist, t.album, rating)]
  {
    match v.currentTrack
    case None => Update(v, [])
    case Some(t) =>
      Update(v.(upDisabled := true, downDisabled := true),
             [SubmitRating(t.title, t.artist, t.album, rating)])
  }

  /** The message a settled vote leaves. A 2xx reply reloads the ratings of
      the track current at that moment; when the track has been cleared in
      the meantime that reload throws, and the catch shows its message. */
  function OutcomeMessage(v: View, outcome: SubmitOutcome): string {
    match outcome
    case Accepted => if v.currentTrack.Some? then ThanksMessage else SubmitFailed
    case ServerError(e) => if e != "" then e else FallbackError
    case NetworkError => SubmitFailed
  }

  /** `rateSong` once its request settles: the message for the outcome, the
      reload of the ratings after a success, and, on every path, both buttons
      enabled again and the message clear scheduled. */
  function RateFinished(v: View, outcome: SubmitOutcome): (r: Update)
    ensures !r.view.upDisabled && !r.view.downDisabled
    ensures r.view == v.(upDisabled := false, downDisabled := false,
                         ratingMessage := r.view.ratingMessage)
    ensures outcome.Accepted? && v.currentTrack.Some? ==>
              && r.view.ratingMessage == ThanksMessage
              && r.effects == [LoadRatings(v.currentTrack.value.title, v.currentTrack.value.artist),
                               ClearMessageLater]
    ensures !(outcome.Accepted? && v.currentTrack.Some?) ==> r.effects == [ClearMessageLater]
    ensures outcome.ServerError? ==>
              r.view.ratingMessage == (if outcome.error != "" then outcome.error else FallbackError)
    ensures outcome.NetworkError? || (outcome.Accepted? && v.currentTrack.None?) ==>
              r.view.ratingMessage == SubmitFailed
  {
    var reload := if outcome.Accepted? && v.currentTrack.Some?
                  then [LoadRatings(v.currentTrack.value.title, v.currentTrack.value.artist)]
                  else [];
    Update(v.(ratingMessage := OutcomeMessage(v, outcome), upDisabled := false, downDisabled := false),
           reload + [ClearMessageLater])
  }

  /** The three-second timer: the message is cleared, whatever it says. */
  function MessageCleared(v: View): (r: View)
    ensures r.ratingMessage == ""
    ensures r.(ratingMessage := v.ratingMessage) == v
  {
    v.(ratingMessage := "")
  }

  /** A click with no current track changes nothing and sends nothing; a
      click with one disables both buttons for the request, and whatever the
      outcome they are enabled again, with the track and the rest of the
      page as they were apart from the message. */
  lemma RateLifecycle(v: View, rating: int, outcome: SubmitOutcome)
    ensures v.currentTrack.None? ==> RateClicked(v, rating) == Update(v, [])
    ensures v.currentTrack.Some? ==>
              var during := RateClicked(v, rating).view;
              var after := RateFinished(during, outcome).view;
              && during.upDisabled && during.downDisabled
              && !after.upDisabled && !after.downDisabled
              && after.(ratingMessage := v.ratingMessage) ==
                   v.(upDisabled := false, downDisabled := false)
  {
  }

  /** Every rating handler keeps the rating section tied to the current
      track. */
  lemma RatingHandlersKeepCoherence(v: View, rating: int, outcome: SubmitOutcome, resp: LoadResponse)
    requires TrackCoherent(v)
    ensures TrackCoherent(RatingsLoaded(v, resp))
    ensures TrackCoherent(RateClicked(v, rating).view)
    ensures TrackCoherent(RateFinished(v, outcome).view)
    ensures TrackCoherent(MessageCleared(v))
  {
  }
}

=== FILE: ratings_store.dfy ===
/** The ratings service: a store of songs keyed by their normalised
    (title, artist) pair, and one thumbs-up or thumbs-down vote per
    (song, browser session). `Rate` is the POST /api/rate handler and
    `GetRatings` the GET /api/ratings/<title>/<artist> handler; the SQLite
    tables become two maps and the session cookie a given value. */
module RatingsStore {
  import opened Wrappers
  import Text

  /** The opaque identifier kept in the signed session cookie. */
  type Session = string

  /** A song's identity: the normalised title and artist. */
  datatype SongKey = SongKey(title: string, artist: string)

  /** A row of the songs table, holding the text of the first request that
      created it. */
  datatype Song = Song(title: string, artist: string, album: string)

  datatype Vote = Up | Down {
    /** The integer stored in the ratings table and sent to the page. */
    function ToInt(): int {
      if Up? then 1 else -1
    }
  }

  /** The ratings table: its UNIQUE(song_id, user_session) constraint makes
      it a map from (song, session) to the vote. */
  type Ratings = map<(SongKey, Session), Vote>

  datatype Store = Store(songs: map<SongKey, Song>, ratings: Ratings)

  /** The foreign key of the ratings table: every vote is for a known song. */
  predicate Valid(st: Store) {
    forall q :: q in st.ratings ==> q.0 in st.songs
  }

  /** The song key, as the identity the service means: the title and the
      artist kept apart, each lower-cased and stripped of all surrounding
      whitespace. Both halves are normal forms: no upper-case letter and no
      whitespace at either end. */
  function KeyOf(title: string, artist: string): (k: SongKey)
    ensures Text.Lower(k.title) == k.title && Text.Strip(k.title) == k.title
    ensures Text.Lower(k.artist) == k.artist && Text.Strip(k.artist) == k.artist
    ensures Text.Normalise(k.title) == k.title && Text.Normalise(k.artist) == k.artist
  {
    SongKey(Text.Normalise(title), Text.Normalise(artist))
  }

  /** Each half of the key comes from its own argument: the title half is
      the lowered title with whitespace cut from both ends, and the artist
      half likewise the lowered artist. */
  lemma KeyOfHalves(title: string, artist: string)
    ensures Text.TrimmedLowerOf(KeyOf(title, artist).title, title)
    ensures Text.TrimmedLowerOf(KeyOf(title, artist).artist, artist)
  {
    Text.NormaliseTrims(title);
    Text.NormaliseTrims(artist);
  }

  /** The text that the service hashes with MD5 to identify a song. Taking
      MD5 as collision-free, two requests name the same song exactly when
      these texts are equal. */
  function HashInput(title: string, artist: string): string {
    Text.Normalise(title) + ":" + Text.Normalise(artist)
  }

  /** The JSON body of a rating request; a field the body lacks is `None`. */
  datatype RateRequest = RateRequest(
    title: Option<string>,
    artist: Option<string>,
    album: Option<string>,
    rating: Option<int>)

  datatype Response = Recorded | Rejected(status: int, error: string)

  datatype RateResult = RateResult(store: Store, response: Response)

  const MissingFieldsError := "Missing required fields: title, artist, rating"
  const BadRatingError := "Rating must be 1 (thumbs up) or -1 (thumbs down)"

  /** The check `rating in [1, -1]`. */
  function VoteOf(rating: int): (v: Option<Vote>)
    ensures v.Some? <==> rating == 1 || rating == -1
    ensures v.Some? ==> v.value.ToInt() == rating
  {
    if rating == 1 then Some(Up) else if rating == -1 then Some(Down) else None
  }

  /** A body is present and names a title, an artist and a rating. */
  predicate HasRequiredFields(data: Option<RateRequest>) {
    data.Some? && data.value.title.Some? && data.value.artist.Some? && data.value.rating.Some?
  }

  /** Every entry of `m2` is that of `m1`, except possibly at `q`. */
  ghost predicate SameExcept<K(!new), V>(m1: map<K, V>, m2: map<K, V>, q: K) {
    forall p :: p != q ==> (p in m1 <==> p in m2) && (p in m1 ==> m1[p] == m2[p])
  }

  /** POST /api/rate: validate the body, create the song if it is new
      (INSERT OR IGNORE keeps the first row), and upsert the caller's vote. */
  function Rate(st: Store, session: Session, data: Option<RateRequest>): (r: RateResult)
    ensures !HasRequiredFields(data) ==> r == RateResult(st, Rejected(400, MissingFieldsError))
    ensures HasRequiredFields(data) && VoteOf(data.value.rating.value).None? ==>
              r == RateResult(st, Rejected(400, BadRatingError))
    ensures r.response.Recorded? <==>
              HasRequiredFields(data) && (data.value.rating.value == 1 || data.value.rating.value == -1)
    ensures r.response.Recorded? ==>
              var k := KeyOf(data.value.title.value, data.value.artist.value);
              && (k, session) in r.store.ratings
              && r.store.ratings[(k, session)].ToInt() == data.value.rating.value
              && SameExcept(st.ratings, r.store.ratings, (k, session))
              && k in r.store.songs
              && SameExcept(st.songs, r.store.songs, k)
              && (k in st.songs ==> r.store.songs[k] == st.songs[k])
              && (k !in st.songs ==>
                    r.store.songs[k] == Song(data.value.title.value, data.value.artist.value,
                                             data.value.album.GetOr("")))
    ensures Valid(st) ==> Valid(r.store)
  {
    if !HasRequiredFields(data) then
      RateResult(st, Rejected(400, MissingFieldsError))
    else
      var req := data.value;
      match VoteOf(req.rating.value)
      case None => RateResult(st, Rejected(400, BadRatingError))
      case Some(v) =>
        var k := KeyOf(req.title.value, req.artist.value);
        var songs := if k in st.songs then st.songs
                     else st.songs[k := Song(req.title.value, req.artist.value, req.album.GetOr(""))];
        RateResult(Store(songs, st.ratings[(k, session) := v]), Recorded)
  }

  /** The number of sessions whose vote on `k` is `v`. */
  function Tally(m: Ratings, k: SongKey, v: Vote): nat {
    |Holders(m, k, v)|
  }

  /** The sessions that have voted on `k`. */
  function Voters(m: Ratings, k: SongKey): set<Session> {
    set q | q in m && q.0 == k :: q.1
  }

  /** The vote `session` cast on `k`, if any. */
  function VoteBy(m: Ratings, k: SongKey, session: Session): Option<Vote> {
    if (k, session) in m then Some(m[(k, session)]) else None
  }

  datatype RatingsReply = RatingsReply(thumbsUp: nat, thumbsDown: nat, userRating: Option<Vote>)

  /** GET /api/ratings/<title>/<artist>: the up and down counts for the song
      and the caller's own vote; an unknown song reports nothing. */
  function GetRatings(st: Store, session: Session, title: string, artist: string): (r: RatingsReply)
    ensures KeyOf(title, artist) !in st.songs ==> r == RatingsReply(0, 0, None)
    ensures KeyOf(title, artist) in st.songs || Valid(st) ==>
              && r.thumbsUp == Tally(st.ratings, KeyOf(title, artist), Up)
              && r.thumbsDown == Tally(st.ratings, KeyOf(title, artist), Down)
              && r.userRating == VoteBy(st.ratings, KeyOf(title, artist), session)
  {
    var k := KeyOf(title, artist);
    if k !in st.songs then
      RatingsReply(0, 0, None)
    else
      RatingsReply(Tally(st.ratings, k, Up), Tally(st.ratings, k, Down), VoteBy(st.ratings, k, session))
  }

  /** Projecting a set of pairs that share their first half onto the second
      half loses no element. */
  lemma {:induction false} ProjectionKeepsSize(P: set<(SongKey, Session)>, k: SongKey)
    requires forall p :: p in P ==> p.0 == k
    ensures |set p | p in P :: p.1| == |P|
    decreases |P|
  {
    if P != {} {
      var x :| x in P;
      var P' := P - {x};
      ProjectionKeepsSize(P', k);
      var img := set p | p in P :: p.1;
      var img' := set p | p in P' :: p.1;
      assert img == img' + {x.1};
      assert x.1 !in img' by {
        forall p | p in P'
          ensures p.1 != x.1
        {
          assert p.0 == x.0;
        }
      }
    }
  }

  /** Every voter is counted once, in exactly one of the two tallies. */
  lemma TalliesCountVoters(m: Ratings, k: SongKey)
    ensures Tally(m, k, Up) + Tally(m, k, Down) == |Voters(m, k)|
  {
    var U := Holders(m, k, Up);
    var D := Holders(m, k, Down);
    var P := set q | q in m && q.0 == k;
    assert U + D == P;
    assert U * D == {};
    assert |U + D| == |U| + |D|;
    ProjectionKeepsSize(P, k);
    assert Voters(m, k) == set p | p in P :: p.1;
  }

  /** The reply's two counts add up to the number of sessions that voted. */
  lemma RatingsCountVoters(st: Store, session: Session, title: string, artist: string)
    requires Valid(st)
    ensures var r := GetRatings(st, session, title, artist);
            r.thumbsUp + r.thumbsDown == |Voters(st.ratings, KeyOf(title, artist))|
  {
    TalliesCountVoters(st.ratings, KeyOf(title, artist));
  }

  /** The (song, session) pairs holding vote `w` on song `k`. */
  function Holders(m: Ratings, k: SongKey, w: Vote): set<(SongKey, Session)> {
    set q | q in m && q.0 == k && m[q] == w
  }

  lemma HoldersAfterUpsert(m: Ratings, q: (SongKey, Session), v: Vote, k: SongKey, w: Vote)
    ensures Holders(m[q := v], k, w) ==
              (Holders(m, k, w) - {q}) + (if q.0 == k && v == w then {q} else {})
  {
  }

  lemma SizeWithout<T>(S: set<T>, x: T)
    ensures |S - {x}| == |S| - (if x in S then 1 else 0)
  {
  }

  /** How one upsert moves the tally of song `k` for vote `w`. */
  lemma TallyAfterUpsert(m: Ratings, q: (SongKey, Session), v: Vote, k: SongKey, w: Vote)
    ensures Tally(m[q := v], k, w) ==
              Tally(m, k, w)
              - (if q.0 == k && q in m && m[q] == w then 1 else 0)
              + (if q.0 == k && v == w then 1 else 0)
  {
    assert Tally(m[q := v], k, w) == |Holders(m[q := v], k, w)|;
    assert Tally(m, k, w) == |Holders(m, k, w)|;
    HoldersAfterUpsert(m, q, v, k, w);
    var A := Holders(m, k, w) - {q};
    SizeWithout(Holders(m, k, w), q);
    assert q in Holders(m, k, w) <==> q.0 == k && q in m && m[q] == w;
    if q.0 == k && v == w {
      assert q !in A;
      assert |A + {q}| == |A| + 1;
    } else {
      assert A + {} == A;
    }
  }

  /** The effect of a recorded vote on the reply for the same song: the
      caller's vote is the new one, and the counts move by the change of
      that one vote. */
  lemma RateMovesTallies(st: Store, session: Session, req: RateRequest, w: Vote)
    requires Valid(st)
    requires HasRequiredFields(Some(req)) && VoteOf(req.rating.value).Some?
    ensures var k := KeyOf(req.title.value, req.artist.value);
            var v := VoteOf(req.rating.value).value;
            var before := VoteBy(st.ratings, k, session);
            var r := Rate(st, session, Some(req));
            && Tally(r.store.ratings, k, w) ==
                 Tally(st.ratings, k, w)
                 - (if before == Some(w) then 1 else 0)
                 + (if v == w then 1 else 0)
            && VoteBy(r.store.ratings, k, session) == Some(v)
  {
    var k := KeyOf(req.title.value, req.artist.value);
    TallyAfterUpsert(st.ratings, (k, session), VoteOf(req.rating.value).value, k, w);
  }

  /** Casting the vote a session already holds changes no count. */
  lemma RepeatVoteKeepsCounts(st: Store, session: Session, req: RateRequest)
    requires Valid(st)
    requires HasRequiredFields(Some(req)) && VoteOf(req.rating.value).Some?
    requires VoteBy(st.ratings, KeyOf(req.title.value, req.artist.value), session) ==
             VoteOf(req.rating.value)
    ensures var t := req.title.value;
            var a := req.artist.value;
            var before := GetRatings(st, session, t, a);
            var after := GetRatings(Rate(st, session, Some(req)).store, session, t, a);
            after == before
  {
    RateMovesTallies(st, session, req, Up);
    RateMovesTallies(st, session, req, Down);
  }

  /** Switching a session's vote from up to down moves one count from
      thumbs-up to thumbs-down. */
  lemma SwitchUpToDown(st: Store, session: Session, req: RateRequest)
    requires Valid(st)
    requires HasRequiredFields(Some(req)) && req.rating.value == -1
    requires VoteBy(st.ratings, KeyOf(req.title.value, req.artist.value), session) == Some(Up)
    ensures var t := req.title.value;
            var a := req.artist.value;
            var before := GetRatings(st, session, t, a);
            var after := GetRatings(Rate(st, session, Some(req)).store, session, t, a);
            && after.thumbsUp == before.thumbsUp - 1
            && after.thumbsDown == before.thumbsDown + 1
            && after.userRating == Some(Down)
  {
    RateMovesTallies(st, session, req, Up);
    RateMovesTallies(st, session, req, Down);
  }

  /** Rating twice with the same request leaves the store as rating once. */
  lemma RateIdempotent(st: Store, session: Session, data: Option<RateRequest>)
    ensures var once := Rate(st, session, data);
            Rate(once.store, session, data) == once
  {
  }

  /** A vote on one song leaves every other song's reply, and every other
      session's view of the same song's own vote, as it was. */
  lemma RateLeavesOthers(st: Store, session: Session, req: RateRequest,
                         other: Session, title: string, artist: string)
    requires Valid(st)
    requires HasRequiredFields(Some(req)) && VoteOf(req.rating.value).Some?
    ensures var k := KeyOf(req.title.value, req.artist.value);
            var before := GetRatings(st, other, title, artist);
            var after := GetRatings(Rate(st, session, Some(req)).store, other, title, artist);
            && (KeyOf(title, artist) != k ==> after == before)
            && (other != session ==> after.userRating == before.userRating)
  {
    var k := KeyOf(req.title.value, req.artist.value);
    var k' := KeyOf(title, artist);
    var v := VoteOf(req.rating.value).value;
    if k' != k {
      TallyAfterUpsert(st.ratings, (k, session), v, k', Up);
      TallyAfterUpsert(st.ratings, (k, session), v, k', Down);
    }
  }

  /** A song nobody has rated reports no votes, and a session that has not
      voted on a song gets no vote of its own back. */
  lemma UnratedReportsNothing(st: Store, session: Session, title: string, artist: string)
    requires Valid(st)
    ensures var k := KeyOf(title, artist);
            var r := GetRatings(st, session, title, artist);
            && (Voters(st.ratings, k) == {} ==> r == RatingsReply(0, 0, None))
            && (session !in Voters(st.ratings, k) <==> r.userRating == None)
  {
    var k := KeyOf(title, artist);
    TalliesCountVoters(st.ratings, k);
    if (k, session) in st.ratings {
      assert session in Voters(st.ratings, k);
    }
  }

  /** Two requests whose titles and artists agree up to ASCII case and
      surrounding whitespace name the same song: they read the same reply
      and write the same vote. */
  lemma SongIdentityIgnoresCaseAndPadding(st: Store, session: Session,
                                          w1: string, u: string, w2: string,
                                          w3: string, b: string, w4: string,
                                          t2: string, a2: string,
                                          album: string, rating: int)
    requires Text.SameUpToCase(u, t2) && Text.SameUpToCase(b, a2)
    requires Text.AllSpace(w1) && Text.AllSpace(w2) && Text.AllSpace(w3) && Text.AllSpace(w4)
    ensures GetRatings(st, session, w1 + u + w2, w3 + b + w4) == GetRatings(st, session, t2, a2)
    ensures Rate(st, session, Some(RateRequest(Some(w1 + u + w2), Some(w3 + b + w4), Some(album), Some(rating)))).store.ratings
         == Rate(st, session, Some(RateRequest(Some(t2), Some(a2), Some(album), Some(rating)))).store.ratings
  {
    Text.NormaliseIgnoresPadding(w1, u, w2);
    Text.NormaliseIgnoresPadding(w3, b, w4);
    Text.NormaliseIgnoresCase(u, t2);
    Text.NormaliseIgnoresCase(b, a2);
  }

  /** The example of a padded, upper-case request. */
  lemma PaddedUpperCaseIsSameSong()
    ensures KeyOf("Foo ", "BAR") == KeyOf("foo", "bar")
  {
  }

  /** The first album stored for a song is kept by later ratings. */
  lemma FirstAlbumKept(st: Store, session: Session, req: RateRequest)
    requires HasRequiredFields(Some(req))
    requires KeyOf(req.title.value, req.artist.value) in st.songs
    ensures Rate(st, session, Some(req)).store.songs == st.songs
  {
  }

  /** The hashed text, as written, merges two different songs when a colon
      sits in a title or an artist. */
  lemma HashInputCollides()
    ensures HashInput("a:b", "c") == HashInput("a", "b:c")
    ensures KeyOf("a:b", "c") != KeyOf("a", "b:c")
  {
  }

  /** The two songs whose hashed texts coincide are kept apart by the pair
      key: a vote on ("a:b", "c"), from any session, leaves every session's
      reply for ("a", "b:c") as it was. */
  lemma ColonSongsKeptApart(st: Store, session: Session, other: Session, album: string, rating: int)
    requires Valid(st)
    ensures HashInput("a:b", "c") == HashInput("a", "b:c")
    ensures var req := RateRequest(Some("a:b"), Some("c"), Some(album), Some(rating));
            GetRatings(Rate(st, session, Some(req)).store, other, "a", "b:c")
              == GetRatings(st, other, "a", "b:c")
  {
    var req := RateRequest(Some("a:b"), Some("c"), Some(album), Some(rating));
    HashInputCollides();
    if VoteOf(rating).Some? {
      RateLeavesOthers(st, session, req, other, "a", "b:c");
    }
  }

  /** When neither normalised title contains a colon, the hashed text does
      identify the song, as the pair key does. */
  lemma {:induction false} HashInputSeparatesColonFreeTitles(t1: string, a1: string, t2: string, a2: string)
    requires ':' !in Text.Normalise(t1) && ':' !in Text.Normalise(t2)
    ensures HashInput(t1, a1) == HashInput(t2, a2) <==> KeyOf(t1, a1) == KeyOf(t2, a2)
  {
    var x1, x2 := Text.Normalise(t1), Text.Normalise(t2);
    var y1, y2 := Text.Normalise(a1), Text.Normalise(a2);
    if HashInput(t1, a1) == HashInput(t2, a2) {
      SplitAtFirstColon(x1, y1, x2, y2);
    }
  }

  lemma SplitAtFirstColon(x1: string, y1: string, x2: string, y2: string)
    requires ':' !in x1 && ':' !in x2
    requires x1 + ":" + y1 == x2 + ":" + y2
    ensures x1 == x2 && y1 == y2
  {
    var s := x1 + ":" + y1;
    assert s == x2 + ":" + y2;
    FirstColonAt(x1, y1);
    FirstColonAt(x2, y2);
    assert |x1| == |x2|;
    assert x1 == s[..|x1|] == x2;
    assert y1 == s[|x1| + 1..] == y2;
  }

  /** In `x + ":" + y` with no colon in `x`, the first colon sits right
      after `x`. */
  lemma FirstColonAt(x: string, y: string)
    requires ':' !in x
    ensures (x + ":" + y)[|x|] == ':'
    ensures forall i :: 0 <= i < |x| ==> (x + ":" + y)[i] != ':'
  {
  }
}

=== FILE: stream_quality.dfy ===
/** The stream-quality panel: the text derived from the streaming library's
    quality levels (or from the audio element when the browser plays the
    stream natively). */
module StreamQuality {
  import opened Wrappers
  import Text

  /** One quality level of the manifest; a bitrate of 0 and an empty codec
      stand for an absent field, as they are falsy in JavaScript. */
  datatype Level = Level(bitrate: nat, audioCodec: string)

  /** What the streaming library reports: its level list and the index of
      the active level (-1 while it chooses automatically). */
  datatype Player = Player(levels: seq<Level>, currentLevel: int)

  datatype QualityText = QualityText(stream: string, source: string)

  /** The level shown: the active one, or the first while the library is
      choosing automatically. */
  function LevelIndex(currentLevel: int): nat {
    if currentLevel >= 0 then currentLevel else 0
  }

  function ResolvedLevel(p: Player): Option<Level> {
    var i := LevelIndex(p.currentLevel);
    if i < |p.levels| then Some(p.levels[i]) else None
  }

  /** `Math.round(bitrate / 1000)` for a non-negative integer bitrate: the
      result times a thousand lies within half a thousand of the bitrate. */
  function RoundKbps(bitrate: nat): (r: nat)
    ensures 1000 * r - 500 <= bitrate < 1000 * r + 500
  {
    (bitrate + 500) / 1000
  }

  /** The displayed kbps is the whole number nearest to bitrate / 1000, and
      the larger one on a tie. */
  lemma RoundKbpsIsNearest(bitrate: nat, k: nat)
    ensures Dist(bitrate, 1000 * RoundKbps(bitrate)) <= Dist(bitrate, 1000 * k)
    ensures Dist(bitrate, 1000 * RoundKbps(bitrate)) == Dist(bitrate, 1000 * k) ==> k <= RoundKbps(bitrate)
  {
  }

  function Dist(a: int, b: int): nat {
    if a >= b then a - b else b - a
  }

  /** The bitrate part of the stream text: "Unknown" for an absent bitrate,
      otherwise the decimal digits, with no leading zero, of the bitrate in
      whole kbps, rounded to the nearest. */
  function BitrateText(bitrate: nat): (r: string)
    ensures r == "Unknown" <==> bitrate == 0
    ensures bitrate > 0 ==>
              && Text.IsDigits(r)
              && |r| > 0 && (r[0] == '0' ==> r == "0")
              && 1000 * Text.DecimalValue(r) - 500 <= bitrate < 1000 * Text.DecimalValue(r) + 500
  {
    if bitrate == 0 then "Unknown"
    else
      var s := Text.DecimalString(RoundKbps(bitrate));
      Text.DecimalRoundTrip(RoundKbps(bitrate));
      assert '0' <= s[0] <= '9';
      s
  }

  /** The codec labels, in the order the page tests for them. */
  const CodecTable: seq<(string, string)> := [
    ("mp4a.40.2", "AAC-LC"),
    ("mp4a.40.5", "AAC-HE"),
    ("flac", "FLAC"),
    ("opus", "Opus"),
    ("mp3", "MP3")
  ]

  /** The label of the first row whose identifier occurs in `codec`, or
      `fallback` when none does. */
  function FirstMatch(table: seq<(string, string)>, codec: string, fallback: string): string {
    if table == [] then fallback
    else if Text.Contains(codec, table[0].0) then table[0].1
    else FirstMatch(table[1..], codec, fallback)
  }

  /** The display label of a codec string, as the page's if/else chain
      computes it: one of the five known labels or the codec string itself.
      A known label appears whenever a known identifier occurs, and an
      unrecognised codec is shown as it is. */
  function CodecLabel(codec: string): (r: string)
    ensures r in {"AAC-LC", "AAC-HE", "FLAC", "Opus", "MP3", codec}
    ensures (forall j :: 0 <= j < |CodecTable| ==> !Text.Contains(codec, CodecTable[j].0)) ==>
              r == codec
    ensures forall j :: 0 <= j < |CodecTable| && Text.Contains(codec, CodecTable[j].0) ==>
              r in {"AAC-LC", "AAC-HE", "FLAC", "Opus", "MP3"}
  {
    assert CodecTable[0].0 == "mp4a.40.2" && CodecTable[1].0 == "mp4a.40.5";
    assert CodecTable[2].0 == "flac" && CodecTable[3].0 == "opus" && CodecTable[4].0 == "mp3";
    if Text.Contains(codec, "mp4a.40.2") then "AAC-LC"
    else if Text.Contains(codec, "mp4a.40.5") then "AAC-HE"
    else if Text.Contains(codec, "flac") then "FLAC"
    else if Text.Contains(codec, "opus") then "Opus"
    else if Text.Contains(codec, "mp3") then "MP3"
    else codec
  }

  /** The codec part of the stream text: an absent codec reads "Unknown",
      a present one is given its label. */
  function CodecText(audioCodec: string): (r: string)
    ensures audioCodec == "" ==> r == "Unknown"
    ensures audioCodec != "" ==> r == CodecLabel(audioCodec)
  {
    UnknownIsNoCodec();
    CodecLabel(if audioCodec == "" then "Unknown" else audioCodec)
  }

  /** The if/else chain is the table lookup in priority order. */
  lemma CodecLabelIsFirstMatch(codec: string)
    ensures CodecLabel(codec) == FirstMatch(CodecTable, codec, codec)
  {
    var t := CodecTable;
    assert t[0] == ("mp4a.40.2", "AAC-LC");
    assert t[1..][0] == ("mp4a.40.5", "AAC-HE");
    assert t[1..][1..][0] == ("flac", "FLAC");
    assert t[1..][1..][1..][0] == ("opus", "Opus");
    assert t[1..][1..][1..][1..][0] == ("mp3", "MP3");
    assert t[1..][1..][1..][1..][1..] == [];
    calc {
      FirstMatch(t, codec, codec);
      if Text.Contains(codec, "mp4a.40.2") then "AAC-LC" else FirstMatch(t[1..], codec, codec);
      if Text.Contains(codec, "mp4a.40.2") then "AAC-LC"
      else if Text.Contains(codec, "mp4a.40.5") then "AAC-HE"
      else FirstMatch(t[1..][1..], codec, codec);
      if Text.Contains(codec, "mp4a.40.2") then "AAC-LC"
      else if Text.Contains(codec, "mp4a.40.5") then "AAC-HE"
      else if Text.Contains(codec, "flac") then "FLAC"
      else FirstMatch(t[1..][1..][1..], codec, codec);
      if Text.Contains(codec, "mp4a.40.2") then "AAC-LC"
      else if Text.Contains(codec, "mp4a.40.5") then "AAC-HE"
      else if Text.Contains(codec, "flac") then "FLAC"
      else if Text.Contains(codec, "opus") then "Opus"
      else FirstMatch(t[1..][1..][1..][1..], codec, codec);
      if Text.Contains(codec, "mp4a.40.2") then "AAC-LC"
      else if Text.Contains(codec, "mp4a.40.5") then "AAC-HE"
      else if Text.Contains(codec, "flac") then "FLAC"
      else if Text.Contains(codec, "opus") then "Opus"
      else if Text.Contains(codec, "mp3") then "MP3"
      else FirstMatch(t[1..][1..][1..][1..][1..], codec, codec);
      CodecLabel(codec);
    }
  }

  /** The word "Unknown" contains no known codec identifier, so its label is
      itself. */
  lemma UnknownIsNoCodec()
    ensures CodecLabel("Unknown") == "Unknown"
  {
    var u := "Unknown";
    Text.NotContainsFirst(u, "mp4a.40.2");
    Text.NotContainsFirst(u, "mp4a.40.5");
    Text.NotContainsFirst(u, "flac");
    Text.NotContainsFirst(u, "mp3");
    forall i | 0 <= i <= |u|
      ensures !Text.OccursAt(u, "opus", i)
    {
      if i + 4 <= |u| {
        assert u[i..i + 4][0] != 'o';
      }
    }
  }

  const LoadingStream := "Stream quality: Loading..."

  /** `updateStreamQuality`: the stream and source texts. */
  function UpdateStreamQuality(hls: Option<Player>, audioSrc: string): (r: QualityText)
    ensures hls.Some? && |hls.value.levels| > 0 && ResolvedLevel(hls.value).Some? ==>
              var l := ResolvedLevel(hls.value).value;
              r == QualityText(
                     "Stream quality: " + BitrateText(l.bitrate) + "kbps " + CodecText(l.audioCodec) + " / HLS",
                     "Source quality: Live Stream (" + CodecText(l.audioCodec) + ")")
    ensures hls.Some? && |hls.value.levels| > 0 && ResolvedLevel(hls.value).None? ==>
              r == QualityText("Stream quality: HLS Lossless", "Source quality: Unknown")
    ensures !(hls.Some? && |hls.value.levels| > 0) && audioSrc != "" ==>
              r == QualityText("Stream quality: HLS Lossless (Native)", "Source quality: Unknown")
    ensures !(hls.Some? && |hls.value.levels| > 0) && audioSrc == "" ==>
              r == QualityText(LoadingStream, "Source quality: Loading...")
  {
    if hls.Some? && |hls.value.levels| > 0 then
      match ResolvedLevel(hls.value)
      case Some(l) =>
        var codec := CodecText(l.audioCodec);
        QualityText("Stream quality: " + BitrateText(l.bitrate) + "kbps " + codec + " / HLS",
                    "Source quality: Live Stream (" + codec + ")")
      case None =>
        QualityText("Stream quality: HLS Lossless", "Source quality: Unknown")
    else if audioSrc != "" then
      QualityText("Stream quality: HLS Lossless (Native)", "Source quality: Unknown")
    else
      QualityText(LoadingStream, "Source quality: Loading...")
  }

  /** While the library chooses the level automatically, the first level is
      described. */
  lemma AutoLevelShowsFirst(levels: seq<Level>, currentLevel: int, audioSrc: string)
    requires currentLevel < 0
    ensures UpdateStreamQuality(Some(Player(levels, currentLevel)), audioSrc)
         == UpdateStreamQuality(Some(Player(levels, 0)), audioSrc)
  {
  }

  /** "Loading..." is shown exactly when neither the library has levels nor
      the audio element has a source. */
  lemma LoadingOnlyBeforeAnySource(hls: Option<Player>, audioSrc: string)
    ensures UpdateStreamQuality(hls, audioSrc).stream == LoadingStream <==>
              !(hls.Some? && |hls.value.levels| > 0) && audioSrc == ""
  {
  }
}

=== FILE: text.dfy ===
/** The string operations the ratings service and the player page rely on,
    restricted to ASCII: Python's `str.lower()` and `str.strip()`,
    JavaScript's `String.prototype.includes`, and the decimal rendering of a
    non-negative integer. */
module Text {

  /** Python's `str.isspace()` on ASCII characters: tab, line feed, vertical
      tab, form feed and carriage return (9-13), the four information
      separators (28-31) and the space character (32). */
  predicate IsSpace(c: char) {
    9 <= c as int <= 13 || 28 <= c as int <= 32
  }

  predicate AllSpace(s: string) {
    forall i :: 0 <= i < |s| ==> IsSpace(s[i])
  }

  /** ASCII upper-case letters to lower case; every other character is kept. */
  function LowerChar(c: char): char {
    if 'A' <= c <= 'Z' then (c as int + 32) as char else c
  }

  predicate IsLower(s: string) {
    forall i :: 0 <= i < |s| ==> LowerChar(s[i]) == s[i]
  }

  function Lower(s: string): string {
    seq(|s|, i requires 0 <= i < |s| => LowerChar(s[i]))
  }

  /** Removes the longest all-space prefix. */
  function TrimStart(s: string): string {
    if |s| > 0 && IsSpace(s[0]) then TrimStart(s[1..]) else s
  }

  /** Removes the longest all-space suffix. */
  function TrimEnd(s: string): string {
    if |s| > 0 && IsSpace(s[|s| - 1]) then TrimEnd(s[..|s| - 1]) else s
  }

  /** Python's `str.strip()` with no argument. */
  function Strip(s: string): string {
    TrimEnd(TrimStart(s))
  }

  /** `TrimStart` removes an all-space prefix and stops at the first
      character that is not a space. */
  lemma {:induction false} TrimStartShape(s: string)
    ensures |TrimStart(s)| <= |s| && TrimStart(s) == s[|s| - |TrimStart(s)|..]
    ensures AllSpace(s[..|s| - |TrimStart(s)|])
    ensures TrimStart(s) == [] || !IsSpace(TrimStart(s)[0])
    decreases |s|
  {
    if |s| > 0 && IsSpace(s[0]) {
      TrimStartShape(s[1..]);
      var r := TrimStart(s);
      assert s[..|s| - |r|] == [s[0]] + s[1..][..|s| - 1 - |r|];
    }
  }

  /** `TrimEnd` removes an all-space suffix and stops at the last character
      that is not a space. */
  lemma {:induction false} TrimEndShape(s: string)
    ensures |TrimEnd(s)| <= |s| && TrimEnd(s) == s[..|TrimEnd(s)|]
    ensures AllSpace(s[|TrimEnd(s)|..])
    ensures TrimEnd(s) == [] || !IsSpace(TrimEnd(s)[|TrimEnd(s)| - 1])
    decreases |s|
  {
    if |s| > 0 && IsSpace(s[|s| - 1]) {
      TrimEndShape(s[..|s| - 1]);
      var r := TrimEnd(s);
      assert s[|r|..] == s[..|s| - 1][|r|..] + [s[|s| - 1]];
    }
  }

  /** `strip()` leaves no space at either end. */
  lemma StripShape(s: string)
    ensures Strip(s) == [] || (!IsSpace(Strip(s)[0]) && !IsSpace(Strip(s)[|Strip(s)| - 1]))
  {
    TrimStartShape(s);
    TrimEndShape(TrimStart(s));
  }

  /** `r` is the lowered `s` with some whitespace cut from each end. */
  predicate TrimmedLowerOf(r: string, s: string) {
    exists i, j :: 0 <= i <= j <= |s| && r == Lower(s)[i..j]
                   && AllSpace(Lower(s)[..i]) && AllSpace(Lower(s)[j..])
  }

  /** `s.lower().strip()`: the normal form of one half of a song key. It
      has no upper-case letter and no whitespace at either end, so lowering
      or stripping it again changes nothing. */
  function Normalise(s: string): (r: string)
    ensures Lower(r) == r
    ensures Strip(r) == r
    ensures r == [] || (!IsSpace(r[0]) && !IsSpace(r[|r| - 1]))
  {
    LowerOfStripped(s);
    StripOfStripped(Lower(s));
    StripShape(Lower(s));
    Strip(Lower(s))
  }

  /** The normal form comes from its input: it is the lowered input with
      whitespace cut from both ends, and since none is left at either end,
      all of it was cut. */
  lemma NormaliseTrims(s: string)
    ensures TrimmedLowerOf(Normalise(s), s)
  {
    var l := Lower(s);
    TrimStartShape(l);
    TrimEndShape(TrimStart(l));
    var i := |l| - |TrimStart(l)|;
    var j := i + |Strip(l)|;
    assert Strip(l) == l[i..j];
    assert l[j..] == TrimStart(l)[|Strip(l)|..];
  }

  /** `c` and `d` are the same character up to ASCII letter case. */
  predicate CaseVariant(c: char, d: char) {
    || c == d
    || ('A' <= c <= 'Z' && d as int == c as int + 32)
    || ('A' <= d <= 'Z' && c as int == d as int + 32)
  }

  /** `x` and `y` differ at most in the case of ASCII letters. */
  predicate SameUpToCase(x: string, y: string) {
    |x| == |y| && forall i :: 0 <= i < |x| ==> CaseVariant(x[i], y[i])
  }

  lemma {:induction false} TrimStartSkipsSpace(w: string, x: string)
    requires AllSpace(w)
    ensures TrimStart(w + x) == TrimStart(x)
    decreases |w|
  {
    if w == [] {
      assert w + x == x;
    } else {
      assert (w + x)[0] == w[0];
      assert (w + x)[1..] == w[1..] + x;
      TrimStartSkipsSpace(w[1..], x);
    }
  }

  lemma {:induction false} TrimEndSkipsSpace(x: string, w: string)
    requires AllSpace(w)
    ensures TrimEnd(x + w) == TrimEnd(x)
    decreases |w|
  {
    if w == [] {
      assert x + w == x;
    } else {
      assert (x + w)[|x + w| - 1] == w[|w| - 1];
      assert (x + w)[..|x + w| - 1] == x + w[..|w| - 1];
      TrimEndSkipsSpace(x, w[..|w| - 1]);
    }
  }

  /** Trimming the front of `x + w` only touches `x` when `x` is not all space. */
  lemma {:induction false} TrimStartKeepsTail(x: string, w: string)
    requires !AllSpace(x)
    ensures TrimStart(x + w) == TrimStart(x) + w
    decreases |x|
  {
    if IsSpace(x[0]) {
      assert (x + w)[1..] == x[1..] + w;
      assert !AllSpace(x[1..]) by {
        var i :| 0 <= i < |x| && !IsSpace(x[i]);
        assert x[1..][i - 1] == x[i];
      }
      TrimStartKeepsTail(x[1..], w);
    }
  }

  lemma TrimStartOfSpace(x: string)
    requires AllSpace(x)
    ensures TrimStart(x) == []
  {
  }

  /** Surrounding whitespace does not change the result of `strip()`. */
  lemma StripIgnoresPadding(w1: string, x: string, w2: string)
    requires AllSpace(w1) && AllSpace(w2)
    ensures Strip(w1 + x + w2) == Strip(x)
  {
    assert w1 + x + w2 == w1 + (x + w2);
    TrimStartSkipsSpace(w1, x + w2);
    if AllSpace(x) {
      assert AllSpace(x + w2);
      TrimStartOfSpace(x + w2);
      TrimStartOfSpace(x);
    } else {
      TrimStartKeepsTail(x, w2);
      TrimEndSkipsSpace(TrimStart(x), w2);
    }
  }

  lemma LowerOfSpace(w: string)
    requires AllSpace(w)
    ensures Lower(w) == w
  {
  }

  lemma LowerAppend(a: string, b: string)
    ensures Lower(a + b) == Lower(a) + Lower(b)
  {
  }

  /** Two strings that differ only in surrounding whitespace normalise alike. */
  lemma NormaliseIgnoresPadding(w1: string, x: string, w2: string)
    requires AllSpace(w1) && AllSpace(w2)
    ensures Normalise(w1 + x + w2) == Normalise(x)
  {
    LowerAppend(w1 + x, w2);
    LowerAppend(w1, x);
    LowerOfSpace(w1);
    LowerOfSpace(w2);
    StripIgnoresPadding(w1, Lower(x), w2);
  }

  /** Two strings that differ only in ASCII letter case normalise alike. */
  lemma NormaliseIgnoresCase(x: string, y: string)
    requires SameUpToCase(x, y)
    ensures Normalise(x) == Normalise(y)
  {
    forall i | 0 <= i < |x|
      ensures Lower(x)[i] == Lower(y)[i]
    {
      assert CaseVariant(x[i], y[i]);
    }
    assert Lower(x) == Lower(y);
  }

  /** `strip()` after `lower()` leaves no upper-case letter. */
  lemma LowerOfStripped(x: string)
    ensures Lower(Strip(Lower(x))) == Strip(Lower(x))
  {
    var l := Lower(x);
    var t := TrimStart(l);
    var n := TrimEnd(t);
    TrimStartShape(l);
    TrimEndShape(t);
    LowerIsLower(x);
    SliceIsLower(l, |l| - |t|, |l|);
    SliceIsLower(t, 0, |n|);
    LowerOfLower(n);
  }

  lemma LowerIsLower(x: string)
    ensures IsLower(Lower(x))
  {
  }

  lemma SliceIsLower(s: string, i: int, j: int)
    requires IsLower(s) && 0 <= i <= j <= |s|
    ensures IsLower(s[i..j])
  {
  }

  lemma LowerOfLower(s: string)
    requires IsLower(s)
    ensures Lower(s) == s
  {
  }

  lemma StripOfStripped(s: string)
    ensures Strip(Strip(s)) == Strip(s)
  {
    var n := Strip(s);
    StripShape(s);
    if n != [] {
      assert TrimStart(n) == n;
      assert TrimEnd(n) == n;
    }
  }

  /** True when `p` occurs in `s` starting at index `i`. */
  predicate OccursAt(s: string, p: string, i: int) {
    0 <= i && i + |p| <= |s| && s[i..i + |p|] == p
  }

  /** JavaScript's `s.includes(p)`. */
  predicate Contains(s: string, p: string) {
    exists i :: 0 <= i <= |s| && OccursAt(s, p, i)
  }

  /** A pattern whose first character is nowhere in `s` does not occur in it. */
  lemma NotContainsFirst(s: string, p: string)
    requires |p| > 0 && p[0] !in s
    ensures !Contains(s, p)
  {
  }

  function DigitChar(d: nat): (c: char)
    requires d < 10
    ensures '0' <= c <= '9'
  {
    (48 + d) as char
  }

  predicate IsDigits(s: string) {
    forall i :: 0 <= i < |s| ==> '0' <= s[i] <= '9'
  }

  /** The decimal rendering JavaScript gives an integer-valued number. */
  function DecimalString(n: nat): (s: string)
    ensures |s| > 0 && IsDigits(s)
    ensures s[0] == '0' ==> n == 0 && s == "0"
    decreases n
  {
    if n < 10 then [DigitChar(n)] else DecimalString(n / 10) + [DigitChar(n % 10)]
  }

  /** Reads a string of decimal digits back as a number. */
  function DecimalValue(s: string): nat
    requires IsDigits(s)
  {
    if s == [] then 0 else DecimalValue(s[..|s| - 1]) * 10 + (s[|s| - 1] as int - 48)
  }

  /** Rendering a number in decimal loses nothing. */
  lemma {:induction false} DecimalRoundTrip(n: nat)
    ensures DecimalValue(DecimalString(n)) == n
    decreases n
  {
    if n >= 10 {
      var s := DecimalString(n);
      assert s[..|s| - 1] == DecimalString(n / 10);
      DecimalRoundTrip(n / 10);
    }
  }
}

=== FILE: wrappers.dfy ===
/** The optional-value wrapper shared by the rest of the model: a JSON field
    that may be absent, a vote that may not have been cast. */
module Wrappers {

  datatype Option<+T> = None | Some(value: T) {

    /** The wrapped value, or `default` when there is none. */
    function GetOr(default: T): T {
      match this
      case Some(v) => v
      case None => default
    }
  }
}
